=== FILE: README.md ===
# Deep Impact atmospheric-entry solver: a Dafny model

This project models the core of the `Planet` class of the Deep Impact
asteroid-entry solver (`deepimpact/solver.py`). That core covers:

- the choice of the atmospheric density function made when a planet is constructed;
- the piecewise-linear interpolation of a tabulated atmosphere;
- the fourth-order Runge-Kutta step;
- the sampling loop of `solve_atmospheric_entry`, which takes sub-steps of at most 0.05 s, emits a row whenever the elapsed time reaches the requested interval, and stops once the velocity falls to 531 m/s;
- `calculate_energy`, which adds the energy deposited per kilometre of descent;
- `analyse_outcome`, which classifies the event as an airburst or a cratering event.

Everything is stated over `real`. The transcendental parts of the physics are left abstract:

- the exponential, sine, cosine and square root;
- the equations of motion as a whole.

They appear as function parameters, and only the properties the code relies on are assumed of them.

Modules, one per file:

- `Wrappers`: `Option`.
- `Atmosphere`: the density table, `linear_interpolate`, the density policies and `Planet.__init__`.
- `Trajectory`: the row record of the result table, and degree/radian conversion.
- `Integrator`: the state vector, `rk4_step`, the radius-growth switch, the fragmentation flag, the sampling loop and `solve_atmospheric_entry`.
- `Energy`: `calculate_energy`.
- `Analysis`: `analyse_outcome`.

## Model

| member | source | states |
|---|---|---|
| Atmosphere.Interpolate | deepimpact/solver.py:288-293 | The lookup is `NoBracket` (the source's `None`) exactly when no table interval contains `x`. Otherwise its value is the one of the first interval containing `x`: the straight line through its end points, or `DegenerateInterval` when that interval's end points coincide and the source divides by zero. |
| Atmosphere.InterpolateFrom | deepimpact/solver.py:289-293 | The scan resumed at interval `i` gives the same answer as the whole scan, given that no earlier interval contains `x`. |
| Atmosphere.InterpolateIsLerp | deepimpact/solver.py:289-292 | On a strictly increasing table, the first interval containing `x` is never degenerate, and the result is the straight-line value on it. |
| Atmosphere.LerpBetween | deepimpact/solver.py:291-292 | Inside its interval, the straight line lies between the two bracketing densities, whichever of them is larger. |
| Atmosphere.LerpAtLeftKnot | deepimpact/solver.py:291-292 | At the left altitude of an interval, the line takes the left density. |
| Atmosphere.LerpAtRightKnot | deepimpact/solver.py:291-292 | At the right altitude of an interval, the line takes the right density. |
| Atmosphere.InterpolateWithinInterval | deepimpact/solver.py:288-292 | On a strictly increasing table, whenever `x` falls in its first bracketing interval: a density is found, it lies between the two bracketing densities, and it equals the left density when `x` is the left altitude. |
| Atmosphere.InterpolateAtKnot | deepimpact/solver.py:288-292 | A strictly increasing table of at least two rows is reproduced at every tabulated altitude, including the last one. |
| Atmosphere.BracketExists | deepimpact/solver.py:289-290 | Every altitude between the `i`-th and the last tabulated altitude lies in some interval from `i` on. |
| Atmosphere.InterpolateOutOfRange | deepimpact/solver.py:288-293 | On a strictly increasing table, the lookup yields `None` if and only if the table has fewer than two rows or `x` lies below the first or above the last altitude. |
| Atmosphere.NewPlanet | deepimpact/solver.py:68-96 | The constructor keeps the constants it is given. It fails only when the tabular policy is asked for and reading the table failed. When the table was read, `"tabular"` gives exactly the tabular policy over that table. The exponential policy is chosen if and only if it is named. Every other name gives the constant policy. |
| Atmosphere.DensityAt | deepimpact/solver.py:82-96 | Evaluating the stored density function yields a density under the exponential and constant policies. Under the tabular policy it is the interpolation of the table: `NoBracket` exactly when no table interval contains the altitude, and otherwise the value of the first interval containing it (`DegenerateInterval` when that interval has equal end points). The constant policy gives `rho0` everywhere. The exponential policy gives `rho0` at sea level. |
| Atmosphere.ConstantFallback | deepimpact/solver.py:87-96 | `"constant"`, and every name that is neither `"exponential"` nor `"tabular"`, gives a planet whose density is `rho0` at every altitude instead of an error. |
| Atmosphere.ExponentialDecreasing | deepimpact/solver.py:82-83 | With positive `rho0` and scale height, `rho0 * exp(-z / H)` strictly decreases with altitude. |
| Atmosphere.ExponentialScaleHeight | deepimpact/solver.py:82-83 | `H` is the scale height: for an exponential with `exp(a + b) = exp(a) * exp(b)`, the density at `z + H` times `exp(1)` is the density at `z`, so climbing one scale height divides the density by `e`. |
| Trajectory.DegreesRadiansRoundTrip | deepimpact/solver.py:117-118 | Converting degrees to radians and back gives the angle again. |
| Integrator.Rk4Step | deepimpact/solver.py:98-104 | When the four derivative evaluations agree, the step is exactly `y + dt * d`: the weights 1, 2, 2, 1 over 6 sum to one. |
| Integrator.Rk4IsSimpson | deepimpact/solver.py:98-104 | When the derivative depends on time alone, one step is Simpson's rule: `y + dt/6 * (g(t) + 4 g(t + dt/2) + g(t + dt))`. This pins the weights 1, 2, 2, 1 and the evaluation times `t`, `t + dt/2`, `t + dt/2` and `t + dt`, which tells the step apart from lower-order rules. |
| Integrator.Rk4LinearTest | deepimpact/solver.py:98-104 | On the linear test equation `r' = lam * r`, one step multiplies the radius by `1 + z + z^2/2 + z^3/6 + z^4/24` with `z = lam * dt`, the Taylor polynomial of `exp(z)` to fourth order. This pins the states the stages are evaluated at: `y + k1/2`, `y + k2/2` and `y + k3`. Evaluating every stage at `y` would give `1 + z` instead. |
| Integrator.Rk4RadiusNonDecreasing | deepimpact/solver.py:98-104 | A non-negative RK4 step never shrinks the radius when every stage's radius derivative is non-negative. |
| Integrator.Rk4StepRadiusGrows | deepimpact/solver.py:98-104 | The same holds for every step under a right-hand side whose radius derivative is never negative. |
| Integrator.Rk4ConstantRate | deepimpact/solver.py:98-104 | Under a constant derivative `c`, one RK4 step is exactly `y + dt * c`. This shows the stage weights sum to one. |
| Integrator.RadiusRate | deepimpact/solver.py:134-138 | `drdt` is zero whenever the ram pressure `rho_a * v^2` does not exceed the strength. Above the strength, with a positive spreading factor and a positive velocity, it is strictly positive. It is non-negative for a non-negative velocity. |
| Integrator.SwitchedRateNonNegative | deepimpact/solver.py:134-138 | Under a right-hand side whose radius derivative is the switch: the derivative is zero at or below the strength, and it is never negative at a non-negative velocity. |
| Integrator.SwitchedRk4RadiusNonDecreasing | deepimpact/solver.py:98-138 | Under the switched radius derivative, an RK4 step of non-negative size never shrinks the radius when the four states it evaluates all have non-negative velocity. |
| Integrator.UpdateFragmented | deepimpact/solver.py:171-175 | After a sub-step the fragmentation flag is set if and only if the ram pressure exceeds the strength. Its previous value never matters. |
| Integrator.SubStep | deepimpact/solver.py:159 | The sub-step is at most `dt` and at most 0.05 s, and it is one of the two. |
| Integrator.RowPeriod | deepimpact/solver.py:159-166 | The number of sub-steps between two emitted rows is the least `n >= 1` for which `n` sub-steps reach `dt`. |
| Integrator.ClockIsProduct | deepimpact/solver.py:161-162 | Accumulating `k` sub-steps of size `h` one at a time gives `k * h`. |
| Integrator.EmitWhenPeriodEnds | deepimpact/solver.py:162-166 | Within a period, the accumulator reaches `dt` exactly on the period's last sub-step. |
| Integrator.FineSamplingEmitsEveryStep | deepimpact/solver.py:159-166 | When `dt <= 0.05`, the sub-step is `dt` itself and every sub-step emits a row. |
| Integrator.Rk4StepperKeepsRadius | deepimpact/solver.py:98-104 | RK4 sub-steps of non-negative size never shrink the radius under a right-hand side whose radius derivative is never negative. |
| Integrator.AdvanceRadiusMonotone | deepimpact/solver.py:157-160 | Along the sub-steps, the radius never decreases when no single sub-step decreases it. |
| Integrator.InitialState | deepimpact/solver.py:117-151 | The initial state carries the given velocity, altitude and radius, with zero distance. The angle is kept when given in radians; otherwise its conversion reads back as the given degrees. The mass is not negative for a non-negative density, radius and `pi`. |
| Integrator.ToRow | deepimpact/solver.py:165-191 | An emitted row carries the time and the state's velocity, mass, altitude, distance and radius. Its angle column, converted back to radians, is the state's angle. It has no `dedz` yet. |
| Trajectory.RadiansDegreesRoundTrip | deepimpact/solver.py:191 | Converting radians to degrees and back gives the angle again. |
| Integrator.InitialAngleRoundTrip | deepimpact/solver.py:117-118 | An angle given in degrees is reported back unchanged by the degree conversion of the output. |
| Integrator.ClockIncreasing | deepimpact/solver.py:161 | With positive sub-steps, the clock strictly increases. |
| Integrator.SampledTimesIncrease | deepimpact/solver.py:159-166 | For a positive sampling interval, the emitted times strictly increase. |
| Integrator.SampledRadiusNonDecreasing | deepimpact/solver.py:160-165 | When no sub-step shrinks the radius, the emitted radius column never decreases. |
| Integrator.Integrate | deepimpact/solver.py:152-175 | The loop stops right after the first sub-step whose velocity is at or below 531 m/s, or when its sub-step budget runs out; there is no other exit. Every earlier sub-step had a velocity above 531 m/s. The `j`-th emitted row is the state after `j + 1` whole periods, stamped with its time. So the rows depend on neither the density function nor the strength through the fragmentation flag. The number of rows is the number of completed periods. When every sub-step emits, the last row has a velocity at or below 531 m/s. |
| Integrator.SolveAtmosphericEntry | deepimpact/solver.py:106-193 | The same facts hold for RK4 sub-steps from the initial state built from the scalar inputs. In addition, the radius column never decreases when the radius derivative is never negative, and the times strictly increase for a positive sampling interval. |
| Energy.KineticEnergyInJoules | deepimpact/solver.py:197-200 | A row's kinetic energy in kilotons, times 4.184e12 J per kiloton, is `m v^2 / 2`. It is not negative for a non-negative mass. |
| Energy.BackwardDiff | deepimpact/solver.py:203-206 | Differencing against the prepended first element keeps the length, gives zero first, and gives each later element minus its predecessor. |
| Energy.BackwardDiffTelescopes | deepimpact/solver.py:203 | The backward differences up to `k`, added to the first element, give back element `k`. |
| Energy.AltitudeStepsKm | deepimpact/solver.py:206-212 | Every divisor is non-zero, because a zero altitude change has been replaced. |
| Energy.StepKm | deepimpact/solver.py:206-212 | The divisor of a row, in kilometres, is never zero. It is the altitude change in metres over 1000, and a zero change is replaced by 1e-6 m. |
| Energy.CalculateEnergy | deepimpact/solver.py:195-217 | An empty trajectory is an error. Otherwise the result has the same length, every row keeps all its other columns and carries `dedz`, and the first `dedz` is zero. |
| Energy.DedzOfRow | deepimpact/solver.py:197-212 | Every later row's `dedz` is the change in kinetic energy in kilotons (divided by 4.184e12 J) over the altitude change in kilometres. A zero altitude change is replaced by 1e-6 m. |
| Energy.CalculateEnergyKeepsState | deepimpact/solver.py:215 | Adding the column changes no row's kinetic energy or altitude. |
| Energy.CalculateEnergyIdempotent | deepimpact/solver.py:215 | Recomputing the column on a trajectory that already has it changes nothing. |
| Analysis.FirstArgMax | deepimpact/solver.py:252 | The index found holds the largest `dedz`, and no earlier index holds the same value. |
| Analysis.FirstMaxUnique | deepimpact/solver.py:252 | The first position of the maximum is unique. |
| Analysis.EnergyLoss | deepimpact/solver.py:263-268 | The energy lost, `(m0 v0^2 / 2 - mk vk^2 / 2) / 4.184e12`, is the first row's kinetic energy in kilotons minus the peak row's. |
| Analysis.AnalyseOutcome | deepimpact/solver.py:242-274 | An empty trajectory gives `Unknown` with all four statistics at zero. Otherwise the first row of maximal `dedz` decides. Above ground it is an airburst: peak `dedz`, altitude and distance come from that row, and the burst energy is the kinetic energy lost since the first row, in kilotons. At or below ground it is cratering, with every statistic at zero. |
| Analysis.AugmentedOutcomeNonNegative | deepimpact/solver.py:203-260 | After `calculate_energy`, the outcome is never `Unknown`, and the peak `dedz` and the burst altitude are not negative, because the first row's `dedz` is zero. |
| Analysis.BurstEnergyIsDeposited | deepimpact/solver.py:263-269 | After `calculate_energy`, the burst energy of an airburst is the sum of the per-row energy losses from the first row to the peak row. |
| Analysis.EnergyBoundedByFirst | deepimpact/solver.py:264-266 | A kinetic energy that never increases from row to row is at most its first value. |
| Analysis.BurstEnergyNonNegative | deepimpact/solver.py:263-269 | When the body never gains kinetic energy, the burst energy is not negative. |

## Left out

- Floating-point arithmetic. Everything is over exact reals.
  - The comparison of the elapsed-time accumulator with `dt` is exact here. In floating point, the sum of `n` sub-steps can fall just short of `dt`, and a row is then emitted one sub-step later.
- `np.exp`, `np.sin`, `np.cos` and `np.sqrt`, and with them the concrete equations of motion (solver.py:120-140).
  - The right-hand side is a function parameter `f`. Of it, only the radius-growth switch (`RadiusRate`, `SwitchedRadius`) is modelled.
  - The radius results of the loop assume a radius derivative that is never negative. The switch gives that only at non-negative velocity, because `sqrt(...) * v` is negative for a negative velocity above the strength. `SwitchedRk4RadiusNonDecreasing` states the step-wise result under that velocity condition.
  - The exponential is a parameter of `DensityAt`. It is assumed increasing, or to turn sums into products, where that is needed.
  - `pi` is a positive parameter.
- The density function inside the loop. It is a parameter `rhoa` that feeds only the fragmentation flag.
  - The `None` a tabular lookup yields outside the table, which would make the arithmetic of the equations of motion fail, is therefore not followed into the loop.
- `read_csv` (solver.py:276-286): file reading and number parsing. `NewPlanet` takes the outcome of reading as a parameter: the table read, or `None` when reading raised.
- The pandas DataFrame. It is a sequence of `Row` records, and `result.loc[0]` is read as the first row.
- The unbounded `while True` loop. `Integrate` takes a sub-step budget (`fuel`) and reports `OutOfFuel` when it runs out. Termination of the source loop is not proved.
- Integrator.Integrate: the last row is not claimed in general to have a velocity at or below 531 m/s. The stopping sub-step is emitted only when the accumulator has just reached `dt`, so the claim is proved only when every sub-step emits a row.
- `Evaluable` demands a non-zero scale height for the exponential policy. With `H = 0` NumPy would produce infinities or NaN, which reals cannot represent.
- Energy.CalculateEnergy: an empty trajectory is `None`. The source raises `KeyError` there when it reads the first kinetic energy.
  - The source also writes the `dedz` column into the caller's table in place and returns that same object. The model returns a new sequence and leaves its argument alone. Its result equals the table the source leaves behind, so only the aliasing is lost: a caller that keeps using its own table sees `dedz` in the source and not here.
- Analysis.AnalyseOutcome: requires every row to carry `dedz`, as the source does by reading the column. NaN entries, which `idxmax` skips, do not exist over reals.
- Integrator.SampledRadiusNonDecreasing: asks that every sub-step keeps the radius, for all states. This is stronger than needed along the one trajectory actually taken.
- The scenario tests of the repository: their numeric comparison against stored reference trajectories, and their assertion that the burst energy exceeds the peak `dedz`. Both are about particular scenarios and not implied by the code.
- The default arguments are not modelled: `atmos_func='exponential'` of the constructor, and `init_altitude=100e3`, `dt=0.25` and `radians=False` of `solve_atmospheric_entry`. Every argument is explicit here, and `EarthConstants` records only the defaults of the physical constants.
- `deepimpact/locator.py`, `ui/ui-code.py` and `function1.py` are not part of this model.

## Notes on behaviour

- A one-row table never yields a density, not even at its own altitude: the scan has no interval to look at.
- When the first interval containing the altitude has equal end points, the source divides by zero. That is the `DegenerateInterval` lookup. A strictly increasing table never reaches it (`InterpolateIsLerp`).
- The fragmentation flag has no memory: after each sub-step it is simply whether the ram pressure exceeds the strength. It is never read.

=== FILE: analysis.dfy ===
/**
 * `analyse_outcome`: locate the peak energy deposition of a trajectory and
 * classify the event as an airburst or a cratering event.
 */
module Analysis {
  import opened Wrappers
  import opened Trajectory
  import opened Energy

  datatype Kind = Airburst | Cratering | Unknown

  /** The outcome dictionary: its `outcome` key and the four `burst_*` keys. */
  datatype Outcome = Outcome(
    kind: Kind,
    burstPeakDedz: real,
    burstAltitude: real,
    burstDistance: real,
    burstEnergy: real
  )

  /** The dictionary the analysis starts from, returned as is for an empty trajectory. */
  const Undetermined := Outcome(Unknown, 0.0, 0.0, 0.0, 0.0)

  /** Every row carries the `dedz` column. */
  predicate HasDedz(rows: seq<Row>)
  {
    forall i :: 0 <= i < |rows| ==> rows[i].dedz.Some?
  }

  function DedzColumn(rows: seq<Row>): (d: seq<real>)
    requires HasDedz(rows)
    ensures |d| == |rows|
    ensures forall i :: 0 <= i < |rows| ==> d[i] == rows[i].dedz.value
  {
    seq(|rows|, i requires 0 <= i < |rows| => rows[i].dedz.value)
  }

  /** `k` is the first position holding the largest element of `xs`. */
  predicate IsFirstMax(xs: seq<real>, k: nat)
  {
    && k < |xs|
    && (forall j :: 0 <= j < |xs| ==> xs[j] <= xs[k])
    && (forall j :: 0 <= j < k ==> xs[j] < xs[k])
  }

  /** There is only one first position of the maximum. */
  lemma FirstMaxUnique(xs: seq<real>, k: nat)
    requires IsFirstMax(xs, k)
    ensures forall j: nat :: IsFirstMax(xs, j) ==> j == k
  {
    forall j: nat | IsFirstMax(xs, j)
      ensures j == k
    {
      assert xs[j] == xs[k];
    }
  }

  /** The kinetic energy lost between two rows, in kilotons, as `analyse_outcome` computes it. */
  function EnergyLostKt(first: Row, peak: Row): real
  {
    var initial := 0.5 * first.mass * first.velocity * first.velocity;
    var burst := 0.5 * peak.mass * peak.velocity * peak.velocity;
    (initial - burst) / JoulesPerKiloton
  }

  /** The energy lost is the drop in kinetic energy between the two rows. */
  lemma EnergyLoss(first: Row, peak: Row)
    ensures EnergyLostKt(first, peak) == KineticEnergyKt(first) - KineticEnergyKt(peak)
  {
  }

  /** `idxmax`: scanning left to right, a later element replaces the maximum only when larger. */
  function FirstArgMax(xs: seq<real>): (k: nat)
    requires |xs| > 0
    ensures IsFirstMax(xs, k)
  {
    if |xs| == 1 then 0
    else
      var k := FirstArgMax(xs[..|xs| - 1]);
      if xs[|xs| - 1] > xs[k] then |xs| - 1 else k
  }

  /**
   * `analyse_outcome`.  On a non-empty trajectory the row of the first
   * maximal `dedz` decides: above ground it is an airburst, reported from that
   * row together with the kinetic energy lost since the first row; at or below
   * ground it is cratering, with every statistic left at zero.
   */
  function AnalyseOutcome(rows: seq<Row>): (o: Outcome)
    requires HasDedz(rows)
    ensures |rows| == 0 ==> o == Undetermined
    ensures |rows| > 0 ==> o.kind != Unknown
    ensures forall k: nat :: IsFirstMax(DedzColumn(rows), k) ==>
              if rows[k].altitude > 0.0 then
                o == Outcome(Airburst, rows[k].dedz.value, rows[k].altitude, rows[k].distance,
                             KineticEnergyKt(rows[0]) - KineticEnergyKt(rows[k]))
              else
                o == Outcome(Cratering, 0.0, 0.0, 0.0, 0.0)
  {
    if |rows| == 0 then Undetermined
    else
      var k := FirstArgMax(DedzColumn(rows));
      var peak := rows[k];
      FirstMaxUnique(DedzColumn(rows), k);
      EnergyLoss(rows[0], peak);
      if peak.altitude > 0.0 then
        Outcome(Airburst, peak.dedz.value, peak.altitude, peak.distance, EnergyLostKt(rows[0], peak))
      else
        Outcome(Cratering, 0.0, 0.0, 0.0, 0.0)
  }

  /**
   * On a trajectory augmented by `CalculateEnergy`, the peak `dedz` and the
   * burst altitude are never negative: the first row's `dedz` is zero.
   */
  lemma AugmentedOutcomeNonNegative(rows: seq<Row>)
    requires |rows| > 0
    ensures HasDedz(CalculateEnergy(rows).value)
    ensures var o := AnalyseOutcome(CalculateEnergy(rows).value);
            o.kind != Unknown && o.burstPeakDedz >= 0.0 && o.burstAltitude >= 0.0
  {
    var e := CalculateEnergy(rows).value;
    var d := DedzColumn(e);
    var k := FirstArgMax(d);
    assert d[0] == 0.0 && d[0] <= d[k];
  }

  /**
   * The burst energy of an airburst is the sum of the per-row energy losses
   * from the first row up to the peak row.
   */
  lemma BurstEnergyIsDeposited(rows: seq<Row>)
    requires |rows| > 0
    ensures HasDedz(CalculateEnergy(rows).value)
    ensures var e := CalculateEnergy(rows).value;
            var o := AnalyseOutcome(e);
            o.kind == Airburst ==>
              o.burstEnergy == -Sum(EnergyDiffs(rows)[..FirstArgMax(DedzColumn(e)) + 1])
  {
    var e := CalculateEnergy(rows).value;
    var k := FirstArgMax(DedzColumn(e));
    var o := AnalyseOutcome(e);
    if o.kind == Airburst {
      assert o.burstEnergy == KineticEnergyKt(e[0]) - KineticEnergyKt(e[k]);
      CalculateEnergyKeepsState(rows);
      BackwardDiffTelescopes(KineticEnergies(rows), k);
    }
  }

  /** A kinetic energy that never increases from row to row is at most its first value. */
  lemma {:induction false} EnergyBoundedByFirst(rows: seq<Row>, k: nat)
    requires k < |rows|
    requires forall i :: 1 <= i < |rows| ==> KineticEnergyKt(rows[i]) <= KineticEnergyKt(rows[i - 1])
    ensures KineticEnergyKt(rows[k]) <= KineticEnergyKt(rows[0])
  {
    if k > 0 {
      EnergyBoundedByFirst(rows, k - 1);
    }
  }

  /** When the body never gains kinetic energy, the burst energy is not negative. */
  lemma BurstEnergyNonNegative(rows: seq<Row>)
    requires HasDedz(rows)
    requires forall i :: 1 <= i < |rows| ==> KineticEnergyKt(rows[i]) <= KineticEnergyKt(rows[i - 1])
    ensures AnalyseOutcome(rows).burstEnergy >= 0.0
  {
    if |rows| > 0 {
      EnergyBoundedByFirst(rows, FirstArgMax(DedzColumn(rows)));
    }
  }
}

=== FILE: atmosphere.dfy ===
/**
 * Atmospheric density model of the `Planet` class: the altitude/density table
 * with its piecewise-linear interpolation, and the choice of density policy
 * made once when a planet is constructed.
 */
module Atmosphere {
  import opened Wrappers

  /** The two columns read from the atmosphere resource, row by row. */
  datatype Table = Table(altitudes: seq<real>, densities: seq<real>)
  {
    /** Both columns were appended together, so they have equal length. */
    predicate Valid()
    {
      |altitudes| == |densities|
    }

    /** The resource lists altitudes in strictly increasing order. */
    predicate Increasing()
    {
      forall i, j :: 0 <= i < j < |altitudes| ==> altitudes[i] < altitudes[j]
    }
  }

  /**
   * Result of one density lookup.  `NoBracket` is the `None` that
   * `linear_interpolate` returns when no table interval contains the altitude;
   * `DegenerateInterval` is its division by zero when the first interval containing the
   * altitude has equal end points.
   */
  datatype Lookup = Density(rho: real) | NoBracket | DegenerateInterval

  /** Interval `i` of the table contains altitude `x` (end points included). */
  predicate Brackets(t: Table, i: nat, x: real)
  {
    i + 1 < |t.altitudes| && t.altitudes[i] <= x <= t.altitudes[i + 1]
  }

  /** Interval `i` is the first interval, in table order, that contains `x`. */
  predicate IsFirstBracket(t: Table, i: nat, x: real)
  {
    Brackets(t, i, x) && forall j :: 0 <= j < i ==> !Brackets(t, j, x)
  }

  /** `d0` moved towards `d1` by the fraction `p / q` of the way. */
  function Line(d0: real, d1: real, p: real, q: real): real
    requires q != 0.0
  {
    d0 + (d1 - d0) * p / q
  }

  /** The straight line through the end points of interval `i`, evaluated at `x`. */
  function Lerp(t: Table, i: nat, x: real): real
    requires t.Valid() && i + 1 < |t.altitudes|
    requires t.altitudes[i] != t.altitudes[i + 1]
  {
    Line(t.densities[i], t.densities[i + 1], x - t.altitudes[i], t.altitudes[i + 1] - t.altitudes[i])
  }

  /** What `linear_interpolate` yields once it has settled on interval `i`. */
  function IntervalValue(t: Table, i: nat, x: real): Lookup
    requires t.Valid() && i + 1 < |t.altitudes|
  {
    if t.altitudes[i] == t.altitudes[i + 1] then DegenerateInterval
    else Density(Lerp(t, i, x))
  }

  /** The scan of `linear_interpolate`, resumed at interval `i`. */
  function InterpolateFrom(t: Table, x: real, i: nat): (r: Lookup)
    requires t.Valid()
    requires forall j :: 0 <= j < i ==> !Brackets(t, j, x)
    ensures r.NoBracket? <==> forall j :: 0 <= j < |t.altitudes| ==> !Brackets(t, j, x)
    ensures forall k :: IsFirstBracket(t, k, x) ==> r == IntervalValue(t, k, x)
    decreases |t.altitudes| - i
  {
    if i + 1 >= |t.altitudes| then NoBracket
    else if t.altitudes[i] <= x <= t.altitudes[i + 1] then
      assert Brackets(t, i, x);
      IntervalValue(t, i, x)
    else InterpolateFrom(t, x, i + 1)
  }

  /**
   * `linear_interpolate`: the value on the first interval containing `x`,
   * `NoBracket` when there is none.
   */
  function Interpolate(t: Table, x: real): (r: Lookup)
    requires t.Valid()
    ensures r.NoBracket? <==> forall j :: 0 <= j < |t.altitudes| ==> !Brackets(t, j, x)
    ensures forall k :: IsFirstBracket(t, k, x) ==> r == IntervalValue(t, k, x)
  {
    InterpolateFrom(t, x, 0)
  }

  /** `rho` lies between `a` and `b`, whichever is larger. */
  predicate Between(rho: real, a: real, b: real)
  {
    (a <= rho <= b) || (b <= rho <= a)
  }

  lemma ScaleBetween(c: real, f: real)
    requires 0.0 <= f <= 1.0
    ensures Between(c * f, 0.0, c)
  {
    if c >= 0.0 {
      assert c * f <= c * 1.0;
    } else {
      assert c * f >= c * 1.0;
    }
  }

  lemma UnitFraction(p: real, q: real)
    requires 0.0 <= p <= q && q > 0.0
    ensures 0.0 <= p / q <= 1.0
  {
    assert p / q * q == p;
  }

  lemma MulDiv(c: real, p: real, q: real)
    requires q != 0.0
    ensures c * p / q == c * (p / q)
  {
  }

  lemma ShiftBetween(p: real, d0: real, d1: real)
    requires Between(p, 0.0, d1 - d0)
    ensures Between(d0 + p, d0, d1)
  {
  }

  /** Moving from `d0` towards `d1` by a fraction `p / q` stays between the two. */
  lemma LineBetween(d0: real, d1: real, p: real, q: real)
    requires 0.0 <= p <= q && q > 0.0
    ensures Between(Line(d0, d1, p, q), d0, d1)
  {
    MulDiv(d1 - d0, p, q);
    UnitFraction(p, q);
    ScaleBetween(d1 - d0, p / q);
    ShiftBetween((d1 - d0) * (p / q), d0, d1);
  }

  /** Inside its interval the straight line stays between the interval's densities. */
  lemma LerpBetween(t: Table, i: nat, x: real)
    requires t.Valid() && i + 1 < |t.altitudes|
    requires t.altitudes[i] <= x <= t.altitudes[i + 1] && t.altitudes[i] < t.altitudes[i + 1]
    ensures Between(Lerp(t, i, x), t.densities[i], t.densities[i + 1])
  {
    LineBetween(t.densities[i], t.densities[i + 1], x - t.altitudes[i], t.altitudes[i + 1] - t.altitudes[i]);
  }

  /** On a strictly increasing table the first bracket gives the straight-line value. */
  lemma InterpolateIsLerp(t: Table, x: real, i: nat)
    requires t.Valid() && t.Increasing()
    requires IsFirstBracket(t, i, x)
    ensures t.altitudes[i] < t.altitudes[i + 1]
    ensures Interpolate(t, x) == Density(Lerp(t, i, x))
  {
    assert t.altitudes[i] < t.altitudes[i + 1];
  }

  /** At the left end of an interval the interpolant takes the left density. */
  lemma LerpAtLeftKnot(t: Table, i: nat)
    requires t.Valid() && i + 1 < |t.altitudes|
    requires t.altitudes[i] != t.altitudes[i + 1]
    ensures Lerp(t, i, t.altitudes[i]) == t.densities[i]
  {
  }

  /**
   * On a strictly increasing table the first interval containing `x` is never
   * degenerate; the interpolant equals the left density at the left knot and
   * lies between the two bracketing densities everywhere in the interval.
   */
  lemma InterpolateWithinInterval(t: Table, x: real, i: nat)
    requires t.Valid() && t.Increasing()
    requires IsFirstBracket(t, i, x)
    ensures Interpolate(t, x).Density?
    ensures Between(Interpolate(t, x).rho, t.densities[i], t.densities[i + 1])
    ensures x == t.altitudes[i] ==> Interpolate(t, x).rho == t.densities[i]
  {
    InterpolateIsLerp(t, x, i);
    LerpAtLeftKnot(t, i);
    LerpBetween(t, i, x);
  }

  /** At the right end of an interval the interpolant takes the right density. */
  lemma LerpAtRightKnot(t: Table, i: nat)
    requires t.Valid() && i + 1 < |t.altitudes|
    requires t.altitudes[i] != t.altitudes[i + 1]
    ensures Lerp(t, i, t.altitudes[i + 1]) == t.densities[i + 1]
  {
    var w := t.altitudes[i + 1] - t.altitudes[i];
    assert (t.densities[i + 1] - t.densities[i]) * w / w == t.densities[i + 1] - t.densities[i];
  }

  /**
   * On a strictly increasing table of at least two rows the interpolation
   * passes through every tabulated point.
   */
  lemma InterpolateAtKnot(t: Table, k: nat)
    requires t.Valid() && t.Increasing()
    requires 2 <= |t.altitudes| && k < |t.altitudes|
    ensures Interpolate(t, t.altitudes[k]) == Density(t.densities[k])
  {
    var x := t.altitudes[k];
    if k == 0 {
      assert IsFirstBracket(t, 0, x);
    } else {
      assert IsFirstBracket(t, k - 1, x) by {
        forall j | 0 <= j < k - 1
          ensures !Brackets(t, j, x)
        {
          assert t.altitudes[j + 1] < t.altitudes[k];
        }
      }
      LerpAtRightKnot(t, k - 1);
    }
  }

  /** Some interval contains every `x` between the first and last altitude. */
  lemma {:induction false} BracketExists(t: Table, x: real, i: nat)
    requires t.Valid() && 2 <= |t.altitudes| && i + 1 < |t.altitudes|
    requires t.altitudes[i] <= x <= t.altitudes[|t.altitudes| - 1]
    ensures exists j :: i <= j < |t.altitudes| && Brackets(t, j, x)
    decreases |t.altitudes| - i
  {
    if x <= t.altitudes[i + 1] {
      assert Brackets(t, i, x);
    } else {
      BracketExists(t, x, i + 1);
    }
  }

  /**
   * On a strictly increasing table the lookup fails exactly when the table has
   * fewer than two rows or `x` lies below the first or above the last altitude.
   */
  lemma InterpolateOutOfRange(t: Table, x: real)
    requires t.Valid() && t.Increasing()
    ensures Interpolate(t, x).NoBracket? <==>
              |t.altitudes| < 2 || x < t.altitudes[0] || x > t.altitudes[|t.altitudes| - 1]
  {
    var n := |t.altitudes|;
    if 2 <= n && t.altitudes[0] <= x <= t.altitudes[n - 1] {
      BracketExists(t, x, 0);
    }
  }

  /** The physical constants of `Planet`. */
  datatype Constants = Constants(
    cd: real,     // drag coefficient
    ch: real,     // heat-transfer coefficient
    q: real,      // heat of ablation (J/kg)
    cl: real,     // lift coefficient
    alpha: real,  // dispersion coefficient
    rp: real,     // planet radius (m)
    g: real,      // surface gravity (m/s^2)
    h: real,      // atmospheric scale height (m)
    rho0: real    // air density at zero altitude (kg/m^3)
  )

  /** The keyword defaults of the constructor (Earth). */
  const EarthConstants := Constants(1.0, 0.1, 10000000.0, 0.001, 0.3, 6371000.0, 9.81, 8000.0, 1.2)

  /** The density function stored at construction. */
  datatype Policy = Exponential | Tabular(table: Table) | Constant

  datatype Planet = Planet(consts: Constants, policy: Policy)

  /**
   * `Planet.__init__`: choose the density policy by name.  `loaded` is what
   * reading the atmosphere resource produced (`None` when it raised); it is
   * consulted only for the tabular policy.  A failed read propagates, while
   * an unknown name falls back to the constant policy.
   */
  function NewPlanet(name: string, consts: Constants, loaded: Option<Table>): (r: Option<Planet>)
    ensures r.Some? ==> r.value.consts == consts
    ensures r.None? <==> name == "tabular" && loaded.None?
    ensures r.Some? && r.value.policy.Tabular? ==> name == "tabular" && Some(r.value.policy.table) == loaded
    ensures r.Some? && r.value.policy.Exponential? <==> name == "exponential"
    ensures name == "tabular" && loaded.Some? ==> r == Some(Planet(consts, Tabular(loaded.value)))
    ensures name != "exponential" && name != "tabular" ==> r == Some(Planet(consts, Constant))
  {
    if name == "exponential" then Some(Planet(consts, Exponential))
    else if name == "tabular" then
      match loaded
      case None => None
      case Some(t) => Some(Planet(consts, Tabular(t)))
    else if name == "constant" then Some(Planet(consts, Constant))
    else Some(Planet(consts, Constant))
  }

  /** Everything the density function of `p` needs in order to be evaluated. */
  predicate Evaluable(p: Planet)
  {
    && (p.policy.Exponential? ==> p.consts.h != 0.0)
    && (p.policy.Tabular? ==> p.policy.table.Valid())
  }

  /**
   * `self.rhoa(z)`.  The exponential function is a parameter: only its
   * monotonicity is used below.
   */
  function DensityAt(p: Planet, z: real, exp: real -> real): (r: Lookup)
    requires Evaluable(p)
    ensures r.Density? || p.policy.Tabular?
    ensures p.policy.Constant? ==> r == Density(p.consts.rho0)
    ensures p.policy.Exponential? && exp(0.0) == 1.0 && z == 0.0 ==> r == Density(p.consts.rho0)
    ensures p.policy.Tabular? ==>
              (r.NoBracket? <==> forall j :: 0 <= j < |p.policy.table.altitudes| ==> !Brackets(p.policy.table, j, z))
    ensures p.policy.Tabular? ==>
              forall i :: IsFirstBracket(p.policy.table, i, z) ==> r == IntervalValue(p.policy.table, i, z)
  {
    match p.policy
    case Exponential => Density(p.consts.rho0 * exp(-z / p.consts.h))
    case Tabular(t) => Interpolate(t, z)
    case Constant => Density(p.consts.rho0)
  }

  /**
   * Every name other than "exponential" and "tabular" (in particular
   * "constant" and any unrecognised name) gives a planet whose density is
   * `rho0` at every altitude.
   */
  lemma ConstantFallback(name: string, consts: Constants, loaded: Option<Table>, z: real, exp: real -> real)
    requires name != "exponential" && name != "tabular"
    ensures NewPlanet(name, consts, loaded).Some?
    ensures NewPlanet(name, consts, loaded).value.policy == Constant
    ensures DensityAt(NewPlanet(name, consts, loaded).value, z, exp) == Density(consts.rho0)
  {
  }

  /**
   * With an increasing exponential, a positive sea-level density and a
   * positive scale height, the exponential policy is strictly decreasing.
   */
  lemma ExponentialDecreasing(p: Planet, z1: real, z2: real, exp: real -> real)
    requires p.policy.Exponential? && p.consts.h > 0.0 && p.consts.rho0 > 0.0
    requires forall a, b :: a < b ==> exp(a) < exp(b)
    requires z1 < z2
    ensures DensityAt(p, z2, exp).rho < DensityAt(p, z1, exp).rho
  {
    var h := p.consts.h;
    assert -z2 / h < -z1 / h;
    var e1, e2 := exp(-z1 / h), exp(-z2 / h);
    assert e2 < e1;
    assert p.consts.rho0 * e2 < p.consts.rho0 * e1;
  }

  /** The exponent `-z / h` one scale height higher is one smaller. */
  lemma OneScaleHeightUp(z: real, h: real)
    requires h != 0.0
    ensures -(z + h) / h + 1.0 == -z / h
  {
    assert -(z + h) / h == -z / h - h / h;
  }

  /** The sum of two exponents. */
  function Exponents(a: real, b: real): real
  {
    a + b
  }

  /** An exponential that turns sums into products, at one sum. */
  lemma ExpOfSum(exp: real -> real, a: real, b: real, c: real)
    requires forall a, b :: exp(Exponents(a, b)) == exp(a) * exp(b)
    requires c == a + b
    ensures exp(c) == exp(a) * exp(b)
  {
    assert Exponents(a, b) == c;
  }

  /**
   * `h` is the scale height of the exponential policy: with an exponential
   * that turns sums into products, climbing by `h` divides the density by `e`.
   */
  lemma ExponentialScaleHeight(p: Planet, z: real, exp: real -> real)
    requires p.policy.Exponential? && p.consts.h != 0.0
    requires forall a, b :: exp(Exponents(a, b)) == exp(a) * exp(b)
    ensures DensityAt(p, z + p.consts.h, exp).rho * exp(1.0) == DensityAt(p, z, exp).rho
  {
    var h := p.consts.h;
    OneScaleHeightUp(z, h);
    ExpOfSum(exp, -(z + h) / h, 1.0, -z / h);
  }
}

=== FILE: energy.dfy ===
/**
 * `calculate_energy`: the energy deposited per kilometre of descent, derived
 * from backward differences of the kinetic energy (in kilotons of TNT) and of
 * the altitude, and added to the trajectory as the `dedz` column.
 */
module Energy {
  import opened Wrappers
  import opened Trajectory

  /** Joules in one kiloton of TNT. */
  const JoulesPerKiloton: real := 4184000000000.0

  /** The altitude change (m) substituted for a zero one, so that no divisor is zero. */
  const ZeroStepAltitude: real := 0.000001

  /** Kinetic energy of a row, in kilotons of TNT. */
  function KineticEnergyKt(row: Row): real
  {
    0.5 * row.mass * row.velocity * row.velocity / JoulesPerKiloton
  }

  /**
   * The kilotons of a row converted back to joules give `m v^2 / 2`, and a
   * body of non-negative mass has non-negative kinetic energy.
   */
  lemma KineticEnergyInJoules(row: Row)
    ensures KineticEnergyKt(row) * JoulesPerKiloton == 0.5 * row.mass * row.velocity * row.velocity
    ensures row.mass >= 0.0 ==> KineticEnergyKt(row) >= 0.0
  {
    var joules := 0.5 * row.mass * row.velocity * row.velocity;
    assert joules / JoulesPerKiloton * JoulesPerKiloton == joules;
    if row.mass >= 0.0 {
      assert row.velocity * row.velocity >= 0.0;
      assert joules >= 0.0;
    }
  }

  /** The change in kinetic energy (kt) from row `prev` to row `row`. */
  function KineticEnergyChange(prev: Row, row: Row): real
  {
    KineticEnergyKt(row) - KineticEnergyKt(prev)
  }

  /** `np.diff`: differences of neighbouring elements. */
  function Diff(xs: seq<real>): (d: seq<real>)
    ensures |xs| > 0 ==> |d| == |xs| - 1
  {
    if |xs| == 0 then []
    else seq(|xs| - 1, i requires 0 <= i < |xs| - 1 => xs[i + 1] - xs[i])
  }

  /** `np.diff(xs, prepend=xs[0])`: each element minus its predecessor, the first minus itself. */
  function BackwardDiff(xs: seq<real>): (d: seq<real>)
    requires |xs| > 0
    ensures |d| == |xs| && d[0] == 0.0
    ensures forall i {:trigger d[i]} :: 1 <= i < |xs| ==> d[i] == xs[i] - xs[i - 1]
  {
    Diff([xs[0]] + xs)
  }

  function Sum(xs: seq<real>): real
  {
    if |xs| == 0 then 0.0 else Sum(xs[..|xs| - 1]) + xs[|xs| - 1]
  }

  /** Summing the backward differences up to `k` recovers `xs[k]` from `xs[0]`. */
  lemma {:induction false} BackwardDiffTelescopes(xs: seq<real>, k: nat)
    requires k < |xs|
    ensures xs[0] + Sum(BackwardDiff(xs)[..k + 1]) == xs[k]
  {
    var d := BackwardDiff(xs);
    if k == 0 {
      assert Sum(d[..1]) == Sum(d[..0]) + d[0];
    } else {
      BackwardDiffTelescopes(xs, k - 1);
      assert d[..k + 1][..k] == d[..k];
    }
  }

  /** The kinetic-energy column, in kilotons. */
  function KineticEnergies(rows: seq<Row>): (e: seq<real>)
    ensures |e| == |rows|
    ensures forall i :: 0 <= i < |rows| ==> e[i] == KineticEnergyKt(rows[i])
  {
    seq(|rows|, i requires 0 <= i < |rows| => KineticEnergyKt(rows[i]))
  }

  function Altitudes(rows: seq<Row>): (z: seq<real>)
    ensures |z| == |rows|
    ensures forall i :: 0 <= i < |rows| ==> z[i] == rows[i].altitude
  {
    seq(|rows|, i requires 0 <= i < |rows| => rows[i].altitude)
  }

  /** An altitude change with zero replaced by the stand-in value. */
  function NonZeroStep(dz: real): (s: real)
    ensures s != 0.0
    ensures dz != 0.0 ==> s == dz
  {
    if dz == 0.0 then ZeroStepAltitude else dz
  }

  /** An altitude change in metres as the divisor in kilometres, zero replaced. */
  function StepKm(dz: real): (s: real)
    ensures s != 0.0
    ensures dz != 0.0 ==> s * 1000.0 == dz
    ensures dz == 0.0 ==> s * 1000.0 == ZeroStepAltitude
  {
    NonZeroStep(dz) / 1000.0
  }

  /** Energy change of each row against the previous one (zero for the first row). */
  function EnergyDiffs(rows: seq<Row>): seq<real>
    requires |rows| > 0
  {
    BackwardDiff(KineticEnergies(rows))
  }

  /** The divisor of each row: its altitude change, zero replaced, in kilometres. */
  function AltitudeStepsKm(rows: seq<Row>): (s: seq<real>)
    requires |rows| > 0
    ensures |s| == |rows|
    ensures forall i :: 0 <= i < |rows| ==> s[i] != 0.0
  {
    var dz := BackwardDiff(Altitudes(rows));
    seq(|rows|, i requires 0 <= i < |rows| => StepKm(dz[i]))
  }

  /**
   * `calculate_energy`.  An empty trajectory has no first row to difference
   * against, and `calculate_energy` raises `KeyError` on it: `None` here.  Otherwise every row
   * keeps its other columns and gets `dedz`, zero for the first row and the
   * energy change over the altitude change (in km) for the others.
   */
  function CalculateEnergy(rows: seq<Row>): (r: Option<seq<Row>>)
    ensures r.None? <==> |rows| == 0
    ensures r.Some? ==> |r.value| == |rows|
    ensures r.Some? ==> forall i :: 0 <= i < |rows| ==>
              r.value[i].(dedz := None) == rows[i].(dedz := None) && r.value[i].dedz.Some?
    ensures r.Some? ==> r.value[0].dedz == Some(0.0)
  {
    if |rows| == 0 then None
    else
      var de := EnergyDiffs(rows);
      var dzKm := AltitudeStepsKm(rows);
      Some(seq(|rows|, i requires 0 <= i < |rows| => rows[i].(dedz := Some(de[i] / dzKm[i]))))
  }

  /**
   * Every row after the first gets the change in kinetic energy since the
   * previous row over the change in altitude in kilometres, with a zero
   * altitude change replaced by the stand-in value.
   */
  lemma DedzOfRow(rows: seq<Row>, i: nat)
    requires 1 <= i < |rows|
    ensures CalculateEnergy(rows).value[i].dedz
              == Some(KineticEnergyChange(rows[i - 1], rows[i]) / StepKm(rows[i].altitude - rows[i - 1].altitude))
  {
    EnergyDiffAt(rows, i);
    AltitudeStepAt(rows, i);
    DedzIsQuotient(rows, i);
  }

  /** Row `i`'s `dedz` is its energy difference over its divisor. */
  lemma DedzIsQuotient(rows: seq<Row>, i: nat)
    requires 1 <= i < |rows|
    ensures CalculateEnergy(rows).value[i].dedz == Some(EnergyDiffs(rows)[i] / AltitudeStepsKm(rows)[i])
  {
  }

  /** The energy difference of row `i` against row `i - 1`. */
  lemma EnergyDiffAt(rows: seq<Row>, i: nat)
    requires 1 <= i < |rows|
    ensures EnergyDiffs(rows)[i] == KineticEnergyChange(rows[i - 1], rows[i])
  {
    var e := KineticEnergies(rows);
    assert BackwardDiff(e)[i] == e[i] - e[i - 1];
  }

  /** The divisor of row `i`: its altitude change, zero replaced, in kilometres. */
  lemma AltitudeStepAt(rows: seq<Row>, i: nat)
    requires 1 <= i < |rows|
    ensures AltitudeStepsKm(rows)[i] == StepKm(rows[i].altitude - rows[i - 1].altitude)
  {
    assert BackwardDiff(Altitudes(rows))[i] == rows[i].altitude - rows[i - 1].altitude;
  }

  /** Adding the column keeps each row's kinetic energy and altitude. */
  lemma CalculateEnergyKeepsState(rows: seq<Row>)
    requires |rows| > 0
    ensures forall i :: 0 <= i < |rows| ==>
              && KineticEnergyKt(CalculateEnergy(rows).value[i]) == KineticEnergyKt(rows[i])
              && CalculateEnergy(rows).value[i].altitude == rows[i].altitude
  {
    var once := CalculateEnergy(rows).value;
    forall i | 0 <= i < |rows|
      ensures KineticEnergyKt(once[i]) == KineticEnergyKt(rows[i])
      ensures once[i].altitude == rows[i].altitude
    {
      assert once[i].(dedz := None) == rows[i].(dedz := None);
    }
  }

  /** Recomputing the column on a trajectory that already has it changes nothing. */
  lemma CalculateEnergyIdempotent(rows: seq<Row>)
    requires |rows| > 0
    ensures CalculateEnergy(CalculateEnergy(rows).value) == CalculateEnergy(rows)
  {
    var once := CalculateEnergy(rows).value;
    CalculateEnergyKeepsState(rows);
    assert KineticEnergies(once) == KineticEnergies(rows);
    assert Altitudes(once) == Altitudes(rows);
    var de, steps := EnergyDiffs(rows), AltitudeStepsKm(rows);
    var twice := CalculateEnergy(once).value;
    forall i | 0 <= i < |rows|
      ensures twice[i] == once[i]
    {
      assert once[i] == rows[i].(dedz := Some(de[i] / steps[i]));
      assert twice[i] == once[i].(dedz := Some(de[i] / steps[i]));
    }
    assert twice == once;
  }
}

=== FILE: integrator.dfy ===
/**
 * The time integrator of `solve_atmospheric_entry`: fourth-order Runge-Kutta
 * sub-steps of at most 0.05 s, an elapsed-time accumulator that decides when
 * a row is emitted, and a stop once the velocity falls to 531 m/s.  The
 * right-hand side of the equations of motion is a parameter; of it only the
 * radius-growth switch is modelled.
 */
module Integrator {
  import opened Wrappers
  import opened Trajectory

  /** The six integrated quantities, in the order of the solver's state vector `y`. */
  datatype State = State(v: real, m: real, theta: real, z: real, x: real, r: real)

  function Add(a: State, b: State): State
  {
    State(a.v + b.v, a.m + b.m, a.theta + b.theta, a.z + b.z, a.x + b.x, a.r + b.r)
  }

  function Scale(c: real, a: State): State
  {
    State(c * a.v, c * a.m, c * a.theta, c * a.z, c * a.x, c * a.r)
  }

  /** A right-hand side `f(t, y)` giving the time derivative of the state. */
  type Rhs = (real, State) -> State

  /** Largest sub-step the integrator takes, whatever sampling interval is asked for. */
  const MaxSubStep: real := 0.05

  /** The integration stops once the velocity is at or below this value (m/s). */
  const TerminalVelocity: real := 531.0

  /** The four derivative evaluations of one Runge-Kutta step. */
  datatype Stages = Stages(d1: State, d2: State, d3: State, d4: State)

  /** The derivative evaluations of `rk4_step`, with `k_i = dt * d_i`. */
  function Rk4Stages(f: Rhs, y: State, t: real, dt: real): Stages
  {
    var d1 := f(t, y);
    var d2 := f(t + dt / 2.0, Add(y, Scale(1.0 / 2.0, Scale(dt, d1))));
    var d3 := f(t + dt / 2.0, Add(y, Scale(1.0 / 2.0, Scale(dt, d2))));
    var d4 := f(t + dt, Add(y, Scale(dt, d3)));
    Stages(d1, d2, d3, d4)
  }

  /** The combination `y + (k1 + 2 k2 + 2 k3 + k4) / 6` of `rk4_step`. */
  function Combine(y: State, k1: State, k2: State, k3: State, k4: State): State
  {
    Add(y, Scale(1.0 / 6.0, Add(Add(Add(k1, Scale(2.0, k2)), Scale(2.0, k3)), k4)))
  }

  /** The weights of the combination sum to one. */
  lemma CombineEqual(y: State, k: State)
    ensures Combine(y, k, k, k, k) == Add(y, k)
  {
  }

  /**
   * `rk4_step`: `y + (k1 + 2 k2 + 2 k3 + k4) / 6` with `k_i = dt * d_i`.
   * When the four derivative evaluations agree, the step moves along that one
   * derivative: the weights sum to one.
   */
  function Rk4Step(f: Rhs, y: State, t: real, dt: real): (r: State)
    ensures var s := Rk4Stages(f, y, t, dt);
            s.d2 == s.d1 && s.d3 == s.d1 && s.d4 == s.d1 ==> r == Add(y, Scale(dt, s.d1))
  {
    var s := Rk4Stages(f, y, t, dt);
    CombineEqual(y, Scale(dt, s.d1));
    Combine(y, Scale(dt, s.d1), Scale(dt, s.d2), Scale(dt, s.d3), Scale(dt, s.d4))
  }

  /**
   * A Runge-Kutta step never shrinks the radius when the step is not negative
   * and every stage's radius derivative is not negative.
   */
  lemma Rk4RadiusNonDecreasing(f: Rhs, y: State, t: real, dt: real)
    requires dt >= 0.0
    requires var s := Rk4Stages(f, y, t, dt);
             s.d1.r >= 0.0 && s.d2.r >= 0.0 && s.d3.r >= 0.0 && s.d4.r >= 0.0
    ensures Rk4Step(f, y, t, dt).r >= y.r
  {
    var s := Rk4Stages(f, y, t, dt);
    assert dt * s.d1.r >= 0.0 && dt * s.d2.r >= 0.0;
    assert dt * s.d3.r >= 0.0 && dt * s.d4.r >= 0.0;
  }

  /** Under a right-hand side whose radius derivative is never negative, no step shrinks the radius. */
  lemma Rk4StepRadiusGrows(f: Rhs, y: State, t: real, dt: real)
    requires RadiusGrows(f) && dt >= 0.0
    ensures Rk4Step(f, y, t, dt).r >= y.r
  {
    Rk4RadiusNonDecreasing(f, y, t, dt);
  }

  /** When the derivative is the same everywhere, a step moves along it exactly. */
  lemma Rk4ConstantRate(f: Rhs, y: State, t: real, dt: real, c: State)
    requires forall t', y' :: f(t', y') == c
    ensures Rk4Step(f, y, t, dt) == Add(y, Scale(dt, c))
  {
    var s := Rk4Stages(f, y, t, dt);
    assert s == Stages(c, c, c, c);
  }

  /** Scaling distributes over addition. */
  lemma ScaleAdd(c: real, p: State, q: State)
    ensures Scale(c, Add(p, q)) == Add(Scale(c, p), Scale(c, q))
  {
  }

  /** Quadrupling commutes with scaling by the step. */
  lemma FourTimesScaled(d: real, p: State)
    ensures Scale(4.0, Scale(d, p)) == Scale(d, Scale(4.0, p))
  {
  }

  /** A sixth of a scaled state is the state scaled by a sixth of the factor. */
  lemma SixthOfScaled(d: real, p: State)
    ensures Scale(1.0 / 6.0, Scale(d, p)) == Scale(d / 6.0, p)
  {
  }

  /** Two multiples of one state add up to the multiple by the sum. */
  lemma AddScales(c: real, d: real, p: State)
    ensures Add(Scale(c, p), Scale(d, p)) == Scale(c + d, p)
  {
  }

  lemma AddAssoc(p: State, q: State, u: State)
    ensures Add(Add(p, q), u) == Add(p, Add(q, u))
  {
  }

  /** The combination with equal middle stages is Simpson's rule over the step. */
  lemma CombineSimpson(y: State, dt: real, a: State, b: State, c: State)
    ensures Combine(y, Scale(dt, a), Scale(dt, b), Scale(dt, b), Scale(dt, c))
            == Add(y, Scale(dt / 6.0, Add(Add(a, Scale(4.0, b)), c)))
  {
    var ka, kb, kc := Scale(dt, a), Scale(dt, b), Scale(dt, c);
    calc {
      Combine(y, ka, kb, kb, kc);
    ==
      Add(y, Scale(1.0 / 6.0, Add(Add(Add(ka, Scale(2.0, kb)), Scale(2.0, kb)), kc)));
    == { AddAssoc(ka, Scale(2.0, kb), Scale(2.0, kb)); AddScales(2.0, 2.0, kb); }
      Add(y, Scale(1.0 / 6.0, Add(Add(ka, Scale(4.0, kb)), kc)));
    == { FourTimesScaled(dt, b); }
      Add(y, Scale(1.0 / 6.0, Add(Add(ka, Scale(dt, Scale(4.0, b))), kc)));
    == { ScaleAdd(dt, a, Scale(4.0, b)); ScaleAdd(dt, Add(a, Scale(4.0, b)), c); }
      Add(y, Scale(1.0 / 6.0, Scale(dt, Add(Add(a, Scale(4.0, b)), c))));
    == { SixthOfScaled(dt, Add(Add(a, Scale(4.0, b)), c)); }
      Add(y, Scale(dt / 6.0, Add(Add(a, Scale(4.0, b)), c)));
    }
  }

  /**
   * When the derivative depends on time alone, an RK4 step is Simpson's rule:
   * the derivative at the start, four times the one at the midpoint and the
   * one at the end, weighted by `dt / 6`.  This pins the weights 1, 2, 2, 1
   * and the evaluation times `t`, `t + dt / 2`, `t + dt / 2` and `t + dt`.
   */
  lemma Rk4IsSimpson(f: Rhs, g: real -> State, y: State, t: real, dt: real)
    requires forall t', y' :: f(t', y') == g(t')
    ensures Rk4Step(f, y, t, dt)
            == Add(y, Scale(dt / 6.0, Add(Add(g(t), Scale(4.0, g(t + dt / 2.0))), g(t + dt))))
  {
    var s := Rk4Stages(f, y, t, dt);
    assert s == Stages(g(t), g(t + dt / 2.0), g(t + dt / 2.0), g(t + dt));
    CombineSimpson(y, dt, g(t), g(t + dt / 2.0), g(t + dt));
  }

  /** The fourth-order Taylor polynomial of `exp(z)`. */
  function Taylor4(z: real): real
  {
    1.0 + z + z * z / 2.0 + z * z * z / 6.0 + z * z * z * z / 24.0
  }

  /** A radius `y` moved half a step `dt` at rate `d`. */
  function HalfStepOn(y: real, dt: real, d: real): real
  {
    y + 1.0 / 2.0 * (dt * d)
  }

  /** A radius `y` moved a whole step `dt` at rate `d`. */
  function FullStepOn(y: real, dt: real, d: real): real
  {
    y + dt * d
  }

  /** The RK4 weighting of four increments, applied to the radius `y`. */
  function WeightedStep(y: real, k1: real, k2: real, k3: real, k4: real): real
  {
    y + 1.0 / 6.0 * (k1 + 2.0 * k2 + 2.0 * k3 + k4)
  }

  /** A stage rate `lam * x` over a step `dt` moves the radius by `z * x`, where `z = lam * dt`. */
  lemma IncrementIs(z: real, lam: real, dt: real, x: real, d: real)
    requires z == lam * dt
    requires d == lam * x
    ensures dt * d == z * x
  {
  }

  /**
   * RK4 on `r' = r` over a step `z`: each increment `k_i` is `z` times the
   * radius its stage evaluates at, and the weighted increments sum to the
   * fourth-order Taylor polynomial of `exp(z)`.
   */
  lemma Rk4Polynomial(y: real, z: real, k1: real, k2: real, k3: real, k4: real, x2: real, x3: real, x4: real)
    requires k1 == z * y
    requires x2 == y + 1.0 / 2.0 * k1
    requires k2 == z * x2
    requires x3 == y + 1.0 / 2.0 * k2
    requires k3 == z * x3
    requires x4 == y + k3
    requires k4 == z * x4
    ensures WeightedStep(y, k1, k2, k3, k4) == y * Taylor4(z)
  {
    assert k2 == y * (z + z * z / 2.0);
    assert k3 == y * (z + z * z / 2.0 + z * z * z / 4.0);
  }

  /**
   * The radius component of an RK4 step under the linear test equation
   * `r' = lam * r`: each stage evaluates at the radius its predecessor
   * reached, so with `z = lam * dt` the increments are `z * r` times
   * `1`, `1 + z/2`, `1 + z/2 + z^2/4` and `1 + z + z^2/2 + z^3/4`.
   */
  lemma LinearStages(y: real, lam: real, dt: real, d1: real, d2: real, d3: real, d4: real,
                     x2: real, x3: real, x4: real)
    requires d1 == lam * y
    requires x2 == HalfStepOn(y, dt, d1)
    requires d2 == lam * x2
    requires x3 == HalfStepOn(y, dt, d2)
    requires d3 == lam * x3
    requires x4 == FullStepOn(y, dt, d3)
    requires d4 == lam * x4
    ensures WeightedStep(y, dt * d1, dt * d2, dt * d3, dt * d4) == y * Taylor4(lam * dt)
  {
    var z := lam * dt;
    IncrementIs(z, lam, dt, y, d1);
    IncrementIs(z, lam, dt, x2, d2);
    IncrementIs(z, lam, dt, x3, d3);
    IncrementIs(z, lam, dt, x4, d4);
    Rk4Polynomial(y, z, dt * d1, dt * d2, dt * d3, dt * d4, x2, x3, x4);
  }

  /** The radius of `Combine` is the RK4 weighting of the increments' radii. */
  lemma CombineRadius(y: State, k1: State, k2: State, k3: State, k4: State)
    ensures Combine(y, k1, k2, k3, k4).r == WeightedStep(y.r, k1.r, k2.r, k3.r, k4.r)
  {
  }

  lemma ScaleRadius(c: real, p: State)
    ensures Scale(c, p).r == c * p.r
  {
  }

  lemma Rk4StepIsCombine(f: Rhs, y: State, t: real, dt: real, s: Stages)
    requires s == Rk4Stages(f, y, t, dt)
    ensures Rk4Step(f, y, t, dt) == Combine(y, Scale(dt, s.d1), Scale(dt, s.d2), Scale(dt, s.d3), Scale(dt, s.d4))
  {
  }

  /** The states at which `rk4_step` evaluates the right-hand side. */
  lemma StageEvaluations(f: Rhs, y: State, t: real, dt: real, s: Stages)
    requires s == Rk4Stages(f, y, t, dt)
    ensures s.d1 == f(t, y)
    ensures s.d2 == f(t + dt / 2.0, Add(y, Scale(1.0 / 2.0, Scale(dt, s.d1))))
    ensures s.d3 == f(t + dt / 2.0, Add(y, Scale(1.0 / 2.0, Scale(dt, s.d2))))
    ensures s.d4 == f(t + dt, Add(y, Scale(dt, s.d3)))
  {
  }

  /** Under `r' = lam * r`, the radius rate at the start of a step. */
  lemma StartRate(f: Rhs, lam: real, t: real, p: State)
    requires forall t', y' :: f(t', y').r == lam * y'.r
    ensures f(t, p).r == lam * p.r
  {
  }

  /** Under `r' = lam * r`, the radius rate half a step on. */
  lemma MidRate(f: Rhs, lam: real, t: real, dt: real, p: State)
    requires forall t', y' :: f(t', y').r == lam * y'.r
    ensures f(t + dt / 2.0, p).r == lam * p.r
  {
  }

  /** Under `r' = lam * r`, the radius rate a whole step on. */
  lemma EndRate(f: Rhs, lam: real, t: real, dt: real, p: State)
    requires forall t', y' :: f(t', y').r == lam * y'.r
    ensures f(t + dt, p).r == lam * p.r
  {
  }

  /**
   * Under `r' = lam * r`, each stage's radius rate is `lam` times the radius
   * of the state `p_i` that `rk4_step` evaluates it at.
   */
  lemma LinearStageRates(f: Rhs, y: State, t: real, dt: real, lam: real, s: Stages, p2: State, p3: State, p4: State)
    requires forall t', y' :: f(t', y').r == lam * y'.r
    requires s.d1 == f(t, y)
    requires s.d2 == f(t + dt / 2.0, p2)
    requires s.d3 == f(t + dt / 2.0, p3)
    requires s.d4 == f(t + dt, p4)
    ensures s.d1.r == lam * y.r
    ensures s.d2.r == lam * p2.r
    ensures s.d3.r == lam * p3.r
    ensures s.d4.r == lam * p4.r
  {
    StartRate(f, lam, t, y);
    MidRate(f, lam, t, dt, p2);
    MidRate(f, lam, t, dt, p3);
    EndRate(f, lam, t, dt, p4);
  }

  /** The radius half a scaled step on. */
  lemma HalfStepRadius(y: State, dt: real, d: State)
    ensures Add(y, Scale(1.0 / 2.0, Scale(dt, d))).r == HalfStepOn(y.r, dt, d.r)
  {
  }

  /** The radius a whole scaled step on. */
  lemma FullStepRadius(y: State, dt: real, d: State)
    ensures Add(y, Scale(dt, d)).r == FullStepOn(y.r, dt, d.r)
  {
  }

  /** The combination of four stages whose radius rates follow the linear recurrence. */
  lemma LinearCombination(y: State, dt: real, lam: real, s: Stages, p2: State, p3: State, p4: State)
    requires p2 == Add(y, Scale(1.0 / 2.0, Scale(dt, s.d1)))
    requires p3 == Add(y, Scale(1.0 / 2.0, Scale(dt, s.d2)))
    requires p4 == Add(y, Scale(dt, s.d3))
    requires s.d1.r == lam * y.r
    requires s.d2.r == lam * p2.r
    requires s.d3.r == lam * p3.r
    requires s.d4.r == lam * p4.r
    ensures Combine(y, Scale(dt, s.d1), Scale(dt, s.d2), Scale(dt, s.d3), Scale(dt, s.d4)).r
              == y.r * Taylor4(lam * dt)
  {
    CombineRadius(y, Scale(dt, s.d1), Scale(dt, s.d2), Scale(dt, s.d3), Scale(dt, s.d4));
    ScaleRadius(dt, s.d1);
    ScaleRadius(dt, s.d2);
    ScaleRadius(dt, s.d3);
    ScaleRadius(dt, s.d4);
    HalfStepRadius(y, dt, s.d1);
    HalfStepRadius(y, dt, s.d2);
    FullStepRadius(y, dt, s.d3);
    LinearStages(y.r, lam, dt, s.d1.r, s.d2.r, s.d3.r, s.d4.r, p2.r, p3.r, p4.r);
  }

  /**
   * On the linear test equation `r' = lam * r` an RK4 step multiplies the
   * radius by the Taylor polynomial of `exp(lam * dt)` up to the fourth
   * power.  This pins the states at which the middle stages are evaluated,
   * `y + k1/2` and `y + k2/2`, and the one of the last stage, `y + k3`.
   */
  lemma Rk4LinearTest(f: Rhs, y: State, t: real, dt: real, lam: real)
    requires forall t', y' :: f(t', y').r == lam * y'.r
    ensures Rk4Step(f, y, t, dt).r == y.r * Taylor4(lam * dt)
  {
    var s := Rk4Stages(f, y, t, dt);
    Rk4StepIsCombine(f, y, t, dt, s);
    StageEvaluations(f, y, t, dt, s);
    var p2 := Add(y, Scale(1.0 / 2.0, Scale(dt, s.d1)));
    var p3 := Add(y, Scale(1.0 / 2.0, Scale(dt, s.d2)));
    var p4 := Add(y, Scale(dt, s.d3));
    LinearStageRates(f, y, t, dt, lam, s, p2, p3, p4);
    LinearCombination(y, dt, lam, s, p2, p3, p4);
  }

  /**
   * `drdt` of the equations of motion: `spread * v` when the ram pressure
   * `rho_a * v^2` exceeds the strength, zero otherwise.  `spread` stands for
   * `sqrt(7/2 * alpha * rho_a / density)`, which is never negative.
   */
  function RadiusRate(rhoA: real, v: real, strength: real, spread: real): (drdt: real)
    requires spread >= 0.0
    ensures rhoA * v * v <= strength ==> drdt == 0.0
    ensures v >= 0.0 ==> drdt >= 0.0
    ensures rhoA * v * v > strength && spread > 0.0 && v > 0.0 ==> drdt > 0.0
  {
    if rhoA * v * v > strength then spread * v else 0.0
  }

  /** The radius derivative of `f` is never negative. */
  ghost predicate RadiusGrows(f: Rhs)
  {
    forall t, y :: f(t, y).r >= 0.0
  }

  /**
   * The radius derivative of `f` is the switch `RadiusRate` of the equations
   * of motion, with `rhoa` the density and `spread` the non-negative square
   * root factor at each altitude.
   */
  ghost predicate SwitchedRadius(f: Rhs, rhoa: real -> real, strength: real, spread: real -> real)
  {
    && (forall z :: spread(z) >= 0.0)
    && (forall t, y :: f(t, y).r == RadiusRate(rhoa(y.z), y.v, strength, spread(y.z)))
  }

  /**
   * Under the switch the radius derivative is zero at or below the strength
   * and never negative at a non-negative velocity.
   */
  lemma SwitchedRateNonNegative(f: Rhs, rhoa: real -> real, strength: real, spread: real -> real,
                                t: real, y: State)
    requires SwitchedRadius(f, rhoa, strength, spread)
    ensures y.v >= 0.0 ==> f(t, y).r >= 0.0
    ensures rhoa(y.z) * y.v * y.v <= strength ==> f(t, y).r == 0.0
  {
    var rate := RadiusRate(rhoa(y.z), y.v, strength, spread(y.z));
    assert f(t, y).r == rate;
  }

  /** The four states at which `rk4_step` evaluates the right-hand side all move forward. */
  predicate StageVelocitiesNonNegative(f: Rhs, y: State, t: real, dt: real)
  {
    var s := Rk4Stages(f, y, t, dt);
    && y.v >= 0.0
    && Add(y, Scale(1.0 / 2.0, Scale(dt, s.d1))).v >= 0.0
    && Add(y, Scale(1.0 / 2.0, Scale(dt, s.d2))).v >= 0.0
    && Add(y, Scale(dt, s.d3)).v >= 0.0
  }

  /**
   * With the switched radius derivative, an RK4 step of non-negative size
   * whose four evaluation states all have non-negative velocity never shrinks
   * the radius.
   */
  lemma SwitchedRk4RadiusNonDecreasing(f: Rhs, rhoa: real -> real, strength: real, spread: real -> real,
                                       y: State, t: real, dt: real)
    requires SwitchedRadius(f, rhoa, strength, spread) && dt >= 0.0
    requires StageVelocitiesNonNegative(f, y, t, dt)
    ensures Rk4Step(f, y, t, dt).r >= y.r
  {
    var s := Rk4Stages(f, y, t, dt);
    var p2 := Add(y, Scale(1.0 / 2.0, Scale(dt, s.d1)));
    var p3 := Add(y, Scale(1.0 / 2.0, Scale(dt, s.d2)));
    var p4 := Add(y, Scale(dt, s.d3));
    SwitchedRateNonNegative(f, rhoa, strength, spread, t, y);
    SwitchedRateNonNegative(f, rhoa, strength, spread, t + dt / 2.0, p2);
    SwitchedRateNonNegative(f, rhoa, strength, spread, t + dt / 2.0, p3);
    SwitchedRateNonNegative(f, rhoa, strength, spread, t + dt, p4);
    Rk4RadiusNonDecreasing(f, y, t, dt);
  }

  /**
   * The fragmentation flag of the loop after one sub-step.  It is raised when
   * the ram pressure exceeds the strength and lowered otherwise: its previous
   * value never matters.
   */
  function UpdateFragmented(fragmented: bool, ramPressure: real, strength: real): (flag: bool)
    ensures flag <==> ramPressure > strength
  {
    if ramPressure > strength then true
    else if fragmented && ramPressure <= strength then false
    else fragmented
  }

  /** `min(dt, 0.05)`: the sub-step actually taken. */
  function SubStep(dt: real): (h: real)
    ensures h <= dt && h <= MaxSubStep
    ensures h == dt || h == MaxSubStep
  {
    if dt <= MaxSubStep then dt else MaxSubStep
  }

  /**
   * Number of sub-steps between two emitted rows: the least `n >= 1` whose
   * accumulated time `n * h` reaches `dt`.
   */
  function RowPeriod(dt: real): (n: nat)
    ensures n >= 1
    ensures n as real * SubStep(dt) >= dt
    ensures n > 1 ==> dt > 0.0 && (n - 1) as real * SubStep(dt) < dt
  {
    if dt <= MaxSubStep then 1
    else
      var q := dt / MaxSubStep;
      assert q > 1.0;
      assert q * MaxSubStep == dt;
      var k := q.Floor;
      if k as real == q then k else k + 1
  }

  /**
   * The time after `k` sub-steps of size `h`, accumulated one sub-step at a
   * time as the loop accumulates `t` and the elapsed-time counter.
   */
  function Clock(h: real, k: nat): real
  {
    if k == 0 then 0.0 else Clock(h, k - 1) + h
  }

  /** Accumulating `k` sub-steps of size `h` gives `k * h`. */
  lemma {:induction false} ClockIsProduct(h: real, k: nat)
    ensures Clock(h, k) == k as real * h
  {
    if k > 0 {
      ClockIsProduct(h, k - 1);
      assert (k - 1) as real * h + h == k as real * h;
    }
  }

  /** A row is due after `k` sub-steps exactly when `k` reaches the period. */
  lemma BelowPeriod(dt: real, k: nat)
    requires 1 <= k < RowPeriod(dt)
    ensures k as real * SubStep(dt) < dt
  {
    var h, n := SubStep(dt), RowPeriod(dt);
    assert k as real * h <= (n - 1) as real * h;
  }

  /** The accumulator, after `c + 1` sub-steps, reaches `dt` exactly at the end of a period. */
  lemma EmitWhenPeriodEnds(dt: real, c: nat)
    requires c < RowPeriod(dt)
    ensures Clock(SubStep(dt), c + 1) >= dt <==> c + 1 == RowPeriod(dt)
  {
    ClockIsProduct(SubStep(dt), c + 1);
    if c + 1 < RowPeriod(dt) {
      BelowPeriod(dt, c + 1);
    }
  }

  /** With a sampling interval of at most 0.05 s every sub-step emits a row. */
  lemma FineSamplingEmitsEveryStep(dt: real)
    requires dt <= MaxSubStep
    ensures RowPeriod(dt) == 1 && SubStep(dt) == dt
  {
  }

  /** One sub-step of fixed size: the state and time before it give the state after it. */
  type Step = (State, real) -> State

  /** `rk4_step(f, y, t, h)` as a sub-step of size `h`. */
  function Rk4Stepper(f: Rhs, h: real): Step
  {
    (y, t) => Rk4Step(f, y, t, h)
  }

  /** The radius never decreases across a sub-step of `step`. */
  ghost predicate KeepsRadius(step: Step)
  {
    forall y, t :: step(y, t).r >= y.r
  }

  /** RK4 sub-steps of non-negative size keep the radius when `f` lets it only grow. */
  lemma Rk4StepperKeepsRadius(f: Rhs, h: real)
    requires RadiusGrows(f) && h >= 0.0
    ensures KeepsRadius(Rk4Stepper(f, h))
  {
    forall y, t
      ensures Rk4Stepper(f, h)(y, t).r >= y.r
    {
      Rk4StepRadiusGrows(f, y, t, h);
    }
  }

  /** The state after `k` sub-steps of size `h` from `y0`. */
  function Advance(step: Step, y0: State, h: real, k: nat): State
  {
    if k == 0 then y0 else step(Advance(step, y0, h, k - 1), Clock(h, k - 1))
  }

  /** The radius never decreases along the sub-steps. */
  lemma {:induction false} AdvanceRadiusMonotone(step: Step, y0: State, h: real, k1: nat, k2: nat)
    requires KeepsRadius(step) && k1 <= k2
    ensures Advance(step, y0, h, k1).r <= Advance(step, y0, h, k2).r
    decreases k2
  {
    if k1 < k2 {
      AdvanceRadiusMonotone(step, y0, h, k1, k2 - 1);
      var y := Advance(step, y0, h, k2 - 1);
      assert step(y, Clock(h, k2 - 1)).r >= y.r;
    }
  }

  /** The initial state vector `y0`; the angle is converted unless given in radians. */
  function InitialState(radius: real, velocity: real, density: real, angle: real,
                        initAltitude: real, radians: bool, pi: real): (y: State)
    ensures y.v == velocity && y.z == initAltitude && y.x == 0.0 && y.r == radius
    ensures radians ==> y.theta == angle
    ensures !radians && pi != 0.0 ==> Degrees(y.theta, pi) == angle
    ensures density >= 0.0 && radius >= 0.0 && pi >= 0.0 ==> y.m >= 0.0
  {
    var theta := if radians then angle else Radians(angle, pi);
    State(velocity, density * (4.0 / 3.0) * pi * radius * radius * radius, theta, initAltitude, 0.0, radius)
  }

  /** The row `[t] + list(y)`, angle reported in degrees. */
  function ToRow(t: real, y: State, pi: real): (row: Row)
    requires pi != 0.0
    ensures row.time == t && row.velocity == y.v && row.mass == y.m
    ensures row.altitude == y.z && row.distance == y.x && row.radius == y.r
    ensures Radians(row.angle, pi) == y.theta
    ensures row.dedz.None?
  {
    Row(t, y.v, y.m, Degrees(y.theta, pi), y.z, y.x, y.r, None)
  }

  /** Time of the `j`-th emitted row: `(j + 1)` whole periods of sub-steps. */
  function SampleTime(dt: real, j: nat): real
  {
    Clock(SubStep(dt), (j + 1) * RowPeriod(dt))
  }

  /** The `j`-th row the loop emits: the state after `(j + 1)` whole periods. */
  function SampledRow(step: Step, y0: State, dt: real, pi: real, j: nat): Row
    requires pi != 0.0
  {
    var k := (j + 1) * RowPeriod(dt);
    ToRow(SampleTime(dt, j), Advance(step, y0, SubStep(dt), k), pi)
  }

  /** An angle given in degrees is reported back unchanged at time zero. */
  lemma InitialAngleRoundTrip(radius: real, velocity: real, density: real, angle: real,
                              initAltitude: real, radians: bool, pi: real)
    requires pi != 0.0
    ensures var y0 := InitialState(radius, velocity, density, angle, initAltitude, radians, pi);
            Degrees(y0.theta, pi) == if radians then Degrees(angle, pi) else angle
  {
    if !radians {
      DegreesRadiansRoundTrip(angle, pi);
    }
  }

  /** With positive sub-steps the clock strictly increases. */
  lemma {:induction false} ClockIncreasing(h: real, a: nat, b: nat)
    requires h > 0.0 && a < b
    ensures Clock(h, a) < Clock(h, b)
    decreases b
  {
    if a < b - 1 {
      ClockIncreasing(h, a, b - 1);
    }
  }

  /** With a positive sampling interval the emitted times strictly increase. */
  lemma SampledTimesIncrease(dt: real, i: nat, j: nat)
    requires dt > 0.0 && i < j
    ensures SampleTime(dt, i) < SampleTime(dt, j)
  {
    var n := RowPeriod(dt);
    assert (i + 1) * n < (j + 1) * n by {
      assert (j + 1) * n == (i + 1) * n + (j - i) * n;
    }
    ClockIncreasing(SubStep(dt), (i + 1) * n, (j + 1) * n);
  }

  /** When every sub-step keeps the radius, the radius column never decreases. */
  lemma SampledRadiusNonDecreasing(step: Step, y0: State, dt: real, pi: real, i: nat, j: nat)
    requires pi != 0.0 && KeepsRadius(step) && i <= j
    ensures SampledRow(step, y0, dt, pi, i).radius <= SampledRow(step, y0, dt, pi, j).radius
  {
    var n := RowPeriod(dt);
    assert (i + 1) * n <= (j + 1) * n;
    AdvanceRadiusMonotone(step, y0, SubStep(dt), (i + 1) * n, (j + 1) * n);
  }

  /** Why the loop ended: the velocity threshold, or the iteration cap of the model. */
  datatype Stop = BelowTerminalVelocity | OutOfFuel

  /**
   * The loop of `solve_atmospheric_entry`, for any sub-step function and at
   * most `fuel` sub-steps.  `rhoa` only feeds the fragmentation flag, which
   * never reaches the rows.
   */
  method Integrate(step: Step, rhoa: real -> real, strength: real, y0: State,
                   dt: real, pi: real, fuel: nat)
    returns (rows: seq<Row>, steps: nat, stop: Stop)
    requires pi != 0.0
    ensures steps <= fuel
    ensures forall k :: 1 <= k < steps ==> Advance(step, y0, SubStep(dt), k).v > TerminalVelocity
    ensures stop == BelowTerminalVelocity ==>
              1 <= steps && Advance(step, y0, SubStep(dt), steps).v <= TerminalVelocity
    ensures stop == OutOfFuel ==>
              steps == fuel && (fuel == 0 || Advance(step, y0, SubStep(dt), fuel).v > TerminalVelocity)
    ensures |rows| * RowPeriod(dt) <= steps < (|rows| + 1) * RowPeriod(dt)
    ensures forall j :: 0 <= j < |rows| ==> rows[j] == SampledRow(step, y0, dt, pi, j)
    ensures stop == BelowTerminalVelocity && RowPeriod(dt) == 1 ==>
              |rows| > 0 && rows[|rows| - 1].velocity <= TerminalVelocity
  {
    var y := y0;
    var t := 0.0;
    var elapsed := 0.0;
    var fragmented := false;
    var h := SubStep(dt);
    ghost var n := RowPeriod(dt);
    ghost var c: nat := 0;
    ghost var base: nat := 0;
    rows := [];
    steps := 0;
    stop := OutOfFuel;
    while steps < fuel
      invariant steps <= fuel
      invariant y == Advance(step, y0, h, steps)
      invariant t == Clock(h, steps)
      invariant c < n && steps == base + c && base == |rows| * n
      invariant elapsed == Clock(h, c)
      invariant forall j :: 0 <= j < |rows| ==> rows[j] == SampledRow(step, y0, dt, pi, j)
      invariant forall k :: 1 <= k <= steps ==> Advance(step, y0, h, k).v > TerminalVelocity
    {
      assert Advance(step, y0, h, steps + 1) == step(y, t);
      y := step(y, t);
      t := t + h;
      elapsed := elapsed + h;
      steps := steps + 1;
      EmitWhenPeriodEnds(dt, c);
      if elapsed >= dt {
        assert base + n == (|rows| + 1) * n;
        rows := rows + [ToRow(t, y, pi)];
        elapsed := 0.0;
        base := base + n;
        c := 0;
      } else {
        c := c + 1;
      }
      if y.v <= TerminalVelocity {
        stop := BelowTerminalVelocity;
        return;
      }
      fragmented := UpdateFragmented(fragmented, rhoa(y.z) * y.v * y.v, strength);
    }
  }

  /**
   * `solve_atmospheric_entry`: integrate the equations of motion `f` by RK4
   * sub-steps from the initial state built from the scalar inputs.
   */
  method SolveAtmosphericEntry(f: Rhs, rhoa: real -> real, strength: real,
                               radius: real, velocity: real, density: real, angle: real,
                               initAltitude: real, dt: real, radians: bool, pi: real, fuel: nat)
    returns (rows: seq<Row>, steps: nat, stop: Stop)
    requires pi > 0.0
    ensures var step := Rk4Stepper(f, SubStep(dt));
            var y0 := InitialState(radius, velocity, density, angle, initAltitude, radians, pi);
            && steps <= fuel
            && (forall k :: 1 <= k < steps ==> Advance(step, y0, SubStep(dt), k).v > TerminalVelocity)
            && (stop == BelowTerminalVelocity ==>
                  1 <= steps && Advance(step, y0, SubStep(dt), steps).v <= TerminalVelocity)
            && (stop == OutOfFuel ==>
                  steps == fuel && (fuel == 0 || Advance(step, y0, SubStep(dt), fuel).v > TerminalVelocity))
            && |rows| * RowPeriod(dt) <= steps < (|rows| + 1) * RowPeriod(dt)
            && (forall j :: 0 <= j < |rows| ==> rows[j] == SampledRow(step, y0, dt, pi, j))
    ensures RadiusGrows(f) && dt >= 0.0 ==>
              forall i, j :: 0 <= i <= j < |rows| ==> rows[i].radius <= rows[j].radius
    ensures dt > 0.0 ==> forall i, j :: 0 <= i < j < |rows| ==> rows[i].time < rows[j].time
  {
    var step := Rk4Stepper(f, SubStep(dt));
    var y0 := InitialState(radius, velocity, density, angle, initAltitude, radians, pi);
    rows, steps, stop := Integrate(step, rhoa, strength, y0, dt, pi, fuel);
    if RadiusGrows(f) && dt >= 0.0 {
      Rk4StepperKeepsRadius(f, SubStep(dt));
      forall i, j | 0 <= i <= j < |rows|
        ensures rows[i].radius <= rows[j].radius
      {
        SampledRadiusNonDecreasing(step, y0, dt, pi, i, j);
      }
    }
    if dt > 0.0 {
      forall i, j | 0 <= i < j < |rows|
        ensures rows[i].time < rows[j].time
      {
        SampledTimesIncrease(dt, i, j);
      }
    }
  }
}

=== FILE: trajectory.dfy ===
/**
 * One row of the trajectory table built by `solve_atmospheric_entry` and
 * extended by `calculate_energy`, with the angle conversions used at its
 * boundary.  `pi` is a parameter throughout: it is irrational, and only its
 * positivity matters here.
 */
module Trajectory {
  import opened Wrappers

  /**
   * Columns time, velocity, mass, angle (degrees), altitude, distance and
   * radius, plus the `dedz` column, absent until `calculate_energy` adds it.
   */
  datatype Row = Row(
    time: real,
    velocity: real,
    mass: real,
    angle: real,
    altitude: real,
    distance: real,
    radius: real,
    dedz: Option<real>
  )

  /** `np.radians`. */
  function Radians(degrees: real, pi: real): real
  {
    degrees * pi / 180.0
  }

  /** `np.degrees`. */
  function Degrees(radians: real, pi: real): real
    requires pi != 0.0
  {
    radians * 180.0 / pi
  }

  /** Converting an angle to degrees and back gives the angle again. */
  lemma RadiansDegreesRoundTrip(a: real, pi: real)
    requires pi != 0.0
    ensures Radians(Degrees(a, pi), pi) == a
  {
    assert a * 180.0 / pi * pi == a * 180.0;
  }

  /** Converting an angle to radians and back gives the angle again. */
  lemma DegreesRadiansRoundTrip(a: real, pi: real)
    requires pi != 0.0
    ensures Degrees(Radians(a, pi), pi) == a
  {
    assert a * pi / 180.0 * 180.0 == a * pi;
    assert a * pi / pi == a;
  }
}

=== FILE: wrappers.dfy ===
/** Failure-carrying wrapper shared by the modules of the entry solver. */
module Wrappers {

  /** A value that may be absent: the Python `None` of the solver. */
  datatype Option<+T> = None | Some(value: T)
}
